=== FILE: README.md ===
# Extension subsystem of browser-laptop, modelled in Dafny

This project models the pure logic inside `app/extensions.js` of the
browser-laptop desktop browser and proves properties of it. That file starts
the browser's bundled Chrome extensions, keeps a table of each extension's
lifecycle state, and supervises the wallet's Ethereum node. The model covers
five pieces:

- **`concatCSP`** (module `Csp`) renders an ordered directive-to-value object
  as a Content-Security-Policy header.
  - Header shape: the header is each directive as `name value; `, in object
    order, then trimmed with `String.prototype.trim`.
  - A parser (`ParseCsp`) reads headers back. It is used to prove that the
    rendering is a round trip, and so injective, for directives the format can
    carry.
- **The `extensionInfo` table** (module `ExtensionInfo`) maps each extension id
  to REGISTERING, REGISTERED, LOADING, ENABLED, DISABLED or `undefined`. It
  also stores each extension's install information. The module holds the
  derived predicates and the two setters.
- **The lifecycle** (module `Lifecycle`) holds `loadExtension`,
  `registerComponent`, the `fs.access` callback, the updater and process event
  handlers that write the table, and the start-up writes. Every call into the
  host is appended to an effect log instead of being performed. Examples:
  - `session.defaultSession.extensions.load` and `enable`;
  - `componentUpdater.registerComponent` and `checkNow`;
  - `appActions.resourceReady`;
  - the `extensionActions` dispatches;
  - the manifest probe.

  An invariant over the table and the log is proved to hold after any
  sequence of events. It says:
  - nothing is LOADING without a load having been started;
  - nothing is REGISTERING without a registration having been requested;
  - everything ENABLED has install information.
- **`insertPredefinedMessages`** (module `LocaleMessages`) replaces
  `__MSG_key__` placeholders in install information with the default locale's
  messages. Install information is a null-free JSON tree (module `Json`),
  whose objects keep their keys in enumeration order.
- **`configurePeers`** (module `PeerSync`) computes the JSON-RPC 2.0 requests
  that reconcile the node's peers with the enode addresses discovered over DNS.
  It also decides which response ends the connection.

The configuration ids (`config.braveExtensionId`, `config.widevineComponentId`
and the others) enter as a `Config` record. The foreign helpers `bravifyText`
and `fileUrl` enter as the functions of a `Host` record.

## Model

| member | source | states |
|---|---|---|
| Csp.ConcatCsp | app/extensions.js:28-34 | An empty policy gives `""`. A non-empty policy gives a header ending in `;`. When every directive is unambiguous, the header plus one space is exactly the entries `name value; ` in enumeration order, so trimming removes only the final space. |
| Csp.CspRoundTrip | app/extensions.js:28-34 | Reading back the header of a policy whose directives are unambiguous gives exactly those directives, in the same order. |
| Csp.ConcatCspInjective | app/extensions.js:28-34 | Two different unambiguous policies never produce the same header. |
| Csp.AccumulatedEnds | app/extensions.js:29-32 | After the loop has visited at least one directive, the accumulated text ends in `; `. |
| Csp.TrimAfterSemicolon | app/extensions.js:33 | `trim` of text ending in `; ` ends in `;`. When the text also starts with a non-white-space character, `trim` removes only the final space. |
| Csp.LeadingSpace | app/extensions.js:33 | `trim` removes from the front exactly the maximal run of white space: every character before the cut is white space, and the first one kept is not. |
| Csp.TrailingSpaceStart | app/extensions.js:33 | `trim` removes from the end exactly the maximal run of white space: every character after the cut is white space, and the last one kept is not. |
| Csp.SplitEntryOf | app/extensions.js:31 | One rendered unambiguous entry, followed by any text, reads back as that directive plus the unread remainder. |
| Csp.ParseAccumulated | app/extensions.js:29-32 | The untrimmed loop output of unambiguous directives reads back as exactly those directives. |
| ExtensionInfo.IsEnabled | app/extensions.js:375-377 | An ENABLED id is registered, and neither DISABLED nor LOADING. |
| ExtensionInfo.IsDisabled | app/extensions.js:378-380 | A DISABLED id is registered, and not LOADING. |
| ExtensionInfo.IsRegistered | app/extensions.js:387-389 | An id is registered exactly when it has a state and that state is not REGISTERING. |
| ExtensionInfo.GetInstallInfo | app/extensions.js:393-395 | The information is `undefined` exactly for an id nothing was stored for, and otherwise it is one of the stored values. |
| ExtensionInfo.IsLoading | app/extensions.js:381-383 | An id that is LOADING is registered. |
| ExtensionInfo.IsLoaded | app/extensions.js:384-386 | An id is loaded exactly when it is ENABLED or DISABLED, and a loaded id is registered. |
| ExtensionInfo.IsRegistering | app/extensions.js:387-392 | Registering and registered never hold together. An id that is neither has state `undefined`. |
| ExtensionInfo.SetState | app/extensions.js:396-398 | Reading the state of `id` back gives the value written, `undefined` included. Every other id keeps its state, and the install information does not change. |
| ExtensionInfo.SetInstallInfo | app/extensions.js:393-401 | `getInstallInfo(id)` afterwards gives the stored information. Every other id keeps its information, and no state changes. |
| Json.GetNone | app/extensions.js:486-488 | A property read finds nothing exactly when the object lacks the key. |
| Json.SetGet | app/extensions.js:486-488 | After a property write the written key reads back as the new value, and every other key reads as before. |
| Json.SetKeys | app/extensions.js:486-488 | A property write keeps the keys and their order. A key the object lacked is appended at the end. |
| Lifecycle.IsExtension | app/extensions.js:406-409 | `isExtension` and `isWidevine` are exact complements for every component id. |
| Lifecycle.LoadExtension | app/extensions.js:525-568 | Only the state of `id` can change, and exactly one effect is appended. An id neither loaded nor LOADING becomes LOADING and its load starts on the given path. For a built-in extension the start is a direct load; otherwise it is a manifest probe. The PDF viewer always gets its own manifest, carrying the configured public key, and the `component` location; every other id keeps the caller's manifest and location. An id already loaded or LOADING only gets an enable, with the table unchanged. |
| Lifecycle.ManifestValue | app/extensions.js:527-546 | The manifest substituted for the PDF viewer carries the configured public key as its `key`. A caller's manifest is passed through. |
| Lifecycle.ManifestChecked | app/extensions.js:556-564 | A missing manifest resets the state of `id` to `undefined` and requests an update check. A present one issues the load with the probed path, manifest and location, and leaves the table unchanged. |
| Lifecycle.RegisterComponent | app/extensions.js:570-586 | An id neither registered nor registering becomes REGISTERING, with one registration request carrying the given key. Otherwise the call does not touch the state itself and never requests a registration. It behaves as `loadExtension(id, storedPath)` when a non-empty stored path exists, and does nothing when none does. |
| Lifecycle.ComponentReady | app/extensions.js:448-457 | Any component is first marked REGISTERED. An extension is then loaded from the reported path with the default empty manifest and `unpacked` location, and ends LOADING with its load started. The Widevine CDM stays REGISTERED, and its readiness is announced. |
| Lifecycle.ComponentRegistered | app/extensions.js:461-471 | Without a non-empty stored path, only an update check is requested and the table is unchanged. With one, the extension is marked REGISTERED and loaded from the stored path with the default empty manifest and `unpacked` location, ending LOADING with its load started. |
| Lifecycle.ExtensionUnloaded | app/extensions.js:477-480 | The extension becomes DISABLED, and so counts as loaded. The disabled action is dispatched, and no other id changes. |
| Lifecycle.Localize | app/extensions.js:494-504 | Localising install information keeps its keys in order and keeps which of them hold strings. With a message file it is the placeholder substitution of `insertPredefinedMessages` over the whole information. Without one it changes nothing. |
| Lifecycle.StoredInstallInfo | app/extensions.js:483-488 | The information the handler stores still carries its `id` as a string. |
| Lifecycle.StoredInstallInfoFields | app/extensions.js:483-488 | The stored information has the localised id and keeps every original key. Its `filePath` is the localised base path, and its `base_path` is that path's file URL. Every other property keeps its localised value. |
| Lifecycle.ExtensionReady | app/extensions.js:482-492 | Given the information as the handler leaves it (`StoredInstallInfo`), the extension is ENABLED under that information's `id` and the information is stored. The installed action carries that same object, including the `filePath` and `base_path` writes made after storing, and the enabled action follows. Every other id keeps its state and information. |
| Lifecycle.StartBundled | app/extensions.js:588-595 | A bundled extension that is to run is marked REGISTERED and then loaded. It ends LOADING with one load-starting effect on the given path, a direct load for a built-in extension, carrying the given manifest and location (the PDF viewer's own manifest and `component` for the PDF viewer), and no other id changes. |
| Lifecycle.StartDisabled | app/extensions.js:866-869 | A bundled extension that its setting turns off becomes DISABLED, and the disabled action is dispatched. |
| Lifecycle.InitialValid | app/extensions.js:402-403 | The empty table satisfies the lifecycle invariant. |
| Lifecycle.LoadExtensionValid | app/extensions.js:547-567 | `loadExtension` keeps the lifecycle invariant. |
| Lifecycle.RegisterComponentValid | app/extensions.js:571-585 | `registerComponent` keeps the lifecycle invariant. |
| Lifecycle.ComponentReadyValid | app/extensions.js:448-457 | The `component-ready` handler keeps the lifecycle invariant. |
| Lifecycle.ComponentRegisteredValid | app/extensions.js:461-471 | The `component-registered` handler keeps the lifecycle invariant. |
| Lifecycle.ExtensionReadyValid | app/extensions.js:482-492 | The `extension-ready` handler keeps the lifecycle invariant. |
| Lifecycle.Step | app/extensions.js:448-595 | Each event is handled by its handler or start-up write, and effects are only ever appended to the log. |
| Lifecycle.Run | app/extensions.js:448-595 | Handling events in order keeps the earlier effects at the front of the log. |
| Lifecycle.StepValid | app/extensions.js:448-595 | Every event keeps the lifecycle invariant and only appends to the effect log. |
| Lifecycle.RunValid | app/extensions.js:448-595 | Any sequence of events from a valid system leaves it valid, with the earlier effects still at the front of the log. |
| LocaleMessages.MatchKey | app/extensions.js:500 | A string matches `^__MSG_(.*)__$` only when it is `__MSG_` + key + `__`, with a key free of line terminators; the key is the capture. |
| LocaleMessages.MatchKeyPlaceholder | app/extensions.js:500 | Every key free of line terminators, written as a placeholder, matches and captures that key. |
| LocaleMessages.Substitute | app/extensions.js:514-519 | A placeholder whose key the dictionary holds becomes the bravified message. A non-matching string, or one whose key is missing, is kept. |
| LocaleMessages.InsertValue | app/extensions.js:508-520 | Objects stay objects with the same keys. A string becomes its placeholder substitution, so a known placeholder is replaced by its message. Arrays, numbers and booleans are kept unchanged. |
| LocaleMessages.InsertPredefinedMessages | app/extensions.js:506-523 | Every property keeps its key and position, and its value is walked. |
| LocaleMessages.GetAfterInsert | app/extensions.js:506-523 | Reading a property after the walk is reading it before and walking its value. |
| LocaleMessages.LookupAfterInsert | app/extensions.js:506-523 | The walk commutes with following any property path. |
| LocaleMessages.LeafBehaviour | app/extensions.js:506-523 | At every path: a placeholder with a known key becomes the bravified message, and any other string is kept. Arrays, numbers and booleans are kept, nested objects keep their keys, and a path leads somewhere afterwards exactly when it did before. |
| PeerSync.AddCommandsTargets | app/extensions.js:658-662 | The enodes the additions name form exactly the set of discovered enodes that are not existing peers, and they appear in discovered order. |
| PeerSync.RemoveCommandsTargets | app/extensions.js:663-667 | The peers the removals name form exactly the set of existing peers that were not discovered, and they appear in the node's order. |
| PeerSync.AddCommandsSequence | app/extensions.js:658-662 | The additions are, front to back, one for each occurrence of a discovered enode that is not an existing peer, so a repeated enode is added twice. |
| PeerSync.RemoveCommandsSequence | app/extensions.js:663-667 | The removals are, front to back, one for each occurrence of an existing peer that was not discovered. |
| PeerSync.Reconciles | app/extensions.js:656-668 | Carrying out the commands in order on the existing peer set gives exactly the discovered set. |
| PeerSync.NoCommandsIffSameSet | app/extensions.js:656-668 | No command is written exactly when the existing and discovered peer sets are equal. |
| PeerSync.CollectAdds | app/extensions.js:658-662 | The loop collects exactly the additions of the diff. |
| PeerSync.CollectRemoves | app/extensions.js:663-667 | The loop collects exactly the removals of the diff. |
| PeerSync.WriteCommands | app/extensions.js:669-671 | The k-th command is written under the k-th next id, after the earlier requests. The counter advances by the number of commands. |
| PeerSync.ConfigurePeers | app/extensions.js:635-673 | The requests are `admin_peers` under id 1 and then the diff's commands, with request k under id k+1. Every request is tagged JSON-RPC `2.0`. `terminateId` is one past the last id written. |
| PeerSync.OnResponse | app/extensions.js:644-679 | A response starts the reconciliation exactly when its id is 1. It closes the connection exactly when its id is not 1 and equals `terminateId`. Any other response is ignored. |
| PeerSync.TerminateIdUnanswered | app/extensions.js:669-678 | As written, no request carries `terminateId`, so no response closes the connection. |
| PeerSync.TerminateIdUnansweredExample | app/extensions.js:669-678 | With no peers and one discovered enode, ids 1 and 2 are written and `terminateId` is 3. Neither answer closes the connection. |
| PeerSync.IntendedTerminateId | app/extensions.js:673 | The intended closing id is absent exactly when there is nothing to reconcile. Otherwise it is the id of the last request written. |
| PeerSync.IntendedTerminateIdCloses | app/extensions.js:669-678 | With the intended id, the answer to the last request closes the connection, and no other answer does. |

## Left out

- Electron and the host runtime are not performed. `session.defaultSession.extensions`, `componentUpdater`, `appActions` and `extensionActions` calls become `Effect` values in the log. The `process.on` and `componentUpdater.on` wiring becomes the `Event` type.
- `reloadExtension` and `disableExtension` are not modelled. They are host calls with a self-removing listener, and they do not write the state table.
- `enableExtension` is modelled only as the `Enable` effect, since its body is a single host call.
- The handlers that only log (`component-update-found`, `extension-load-error` and the like) are not modelled.
- The manifest probe of `fs.access` is modelled as the separate `ManifestProbed` event, because its callback runs later. The model does not fix when it arrives relative to other events.
- `insertLocaleStrings` file handling is not modelled: reading `_locales/<default_locale>/messages.json`, `fs.existsSync` and `JSON.parse`. Its result enters as the `messages` parameter of `Localize`, which is absent when there is no default locale or no file.
- The dictionary maps a message name to that entry's `message` text. An entry without `message`, and names such as `constructor` that JavaScript finds on `Object.prototype`, are not modelled.
- JSON `null` is left out of the `Json.Value` type. `insertPredefinedMessages` would recurse into it and throw.
- `extension-ready` with install information that lacks `manifest`, or lacks `id` or `base_path` as strings, is not modelled. `Lifecycle.ReadyInfo` requires all three, as a guarantee of the host. Without `manifest`, `insertLocaleStrings` throws a TypeError at `installInfo.manifest.default_locale` before any state write. Without `base_path`, `path.join` throws when a default locale exists, and otherwise `fileUrl(undefined)` would be stored. Without a string `id`, the table would be written under a non-string key.
- Numbers are mathematical integers, since no modelled operation does arithmetic on them.
- `bravifyText` and `fileUrl` are foreign helpers and enter as uninterpreted functions.
- The manifest generators (`generateBraveManifest` and the others) and the extension paths enter as parameters. The PDF viewer's manifest is the exception: the log records it as `Lifecycle.PdfViewer` with its public key, and `Lifecycle.ManifestValue` renders the literal object, with its icon keys in the order JavaScript enumerates integer-like keys. Of its contents only the `key` property is stated.
- `registerComponents` is not modelled: it is a settings-driven fan-out of `registerComponent` and `disableExtension` calls. The settings that choose between running and disabling a bundled extension are not modelled either: a run is any sequence of `BundledStarted`, `BundledDisabled` and other events.
- The geth supervisor (`spawnGeth`, `handleGethStop`, `writeGethPid`, `cleanupGeth`, `restartGeth`) is not modelled, nor are the wallet IPC handlers. They are process, PID-file and timer code.
- In `configurePeers`, sockets, DNS resolution, the JSON-RPC wire text and the splitting of socket `data` into chunks are not modelled.
  - The existing and discovered peers are plain lists of enode strings, as the code compares them. `admin_peers` usually answers with peer-information objects that carry an `enode` field; with those, `includes` never matches, so `PeerSync.Reconciles` holds only when the node answers with enode strings.
  - Each response is taken to carry the id of the request it answers.
- Csp.ConcatCsp: the exact header is stated, and proved to read back, only for unambiguous directives: a non-empty name without white space or `;`, and a value without `;`. For other directives only the empty and `;`-ending shapes are stated.
- The order of directives is the order the policy object enumerates its keys. JavaScript's rule that integer-like keys come first is not modelled, because CSP directive names are never integer-like.
- The comment above `concatCSP` gives `'default-src: *;'` as an example output. The code emits no colon, and the model follows the code.

## Findings

| source | as written | input that shows it | evidently intended | confidence | as-written member | corrected member |
|---|---|---|---|---|---|---|
| app/extensions.js:673 | `terminateId = id` runs after the write loop, so it holds one past the last id written, and no request carries it. The response check at line 676 therefore never matches, and `client.end()` is never called. With nothing to reconcile, `terminateId` is 2, which is also never sent. | No existing peers and discovered `["enode://k@10.0.0.1:30303"]`: requests 1 and 2 are written, `terminateId` is 3, and neither response closes the socket. | `terminateId` is the id of the last request written (`id - 1`), and the connection ends at once when there is nothing to reconcile. | medium; not executed | PeerSync.TerminateIdUnanswered | PeerSync.IntendedTerminateIdCloses |

=== FILE: csp.dfy ===
/** The Content-Security-Policy header string built from an ordered directive
    object (`concatCSP`, app/extensions.js). */
module Csp {
  import opened Wrappers

  /** One property of the policy object: a directive name and the value it maps to,
      in the order the object enumerates its properties. */
  datatype Directive = Directive(name: string, value: string)

  /** ECMAScript WhiteSpace and LineTerminator code points: the characters
      `String.prototype.trim` removes from both ends. */
  predicate IsSpace(c: char)
  {
    || c == '\t' || c == '\n' || c == '\U{000B}' || c == '\U{000C}' || c == '\r'
    || c == ' ' || c == '\U{00A0}' || c == '\U{1680}' || ('\U{2000}' <= c <= '\U{200A}')
    || c == '\U{2028}' || c == '\U{2029}' || c == '\U{202F}' || c == '\U{205F}'
    || c == '\U{3000}' || c == '\U{FEFF}'
  }

  /** The number of white-space characters `s` starts with. */
  function LeadingSpace(s: string): (n: nat)
    ensures n <= |s|
    ensures forall i {:trigger IsSpace(s[i])} :: 0 <= i < n ==> IsSpace(s[i])
    ensures n < |s| ==> !IsSpace(s[n])
  {
    if s != [] && IsSpace(s[0]) then 1 + LeadingSpace(s[1..]) else 0
  }

  /** Where the white space `s` ends with begins. */
  function TrailingSpaceStart(s: string): (m: nat)
    ensures m <= |s|
    ensures forall i {:trigger IsSpace(s[i])} :: m <= i < |s| ==> IsSpace(s[i])
    ensures 0 < m ==> !IsSpace(s[m - 1])
  {
    if s != [] && IsSpace(s[|s| - 1]) then TrailingSpaceStart(s[..|s| - 1]) else |s|
  }

  /** `s` without its leading white space. */
  function TrimStart(s: string): string
  {
    s[LeadingSpace(s)..]
  }

  /** `s` without its trailing white space. */
  function TrimEnd(s: string): string
  {
    s[..TrailingSpaceStart(s)]
  }

  /** `String.prototype.trim`. */
  function Trim(s: string): string
  {
    TrimEnd(TrimStart(s))
  }

  /** What one loop iteration appends: `directive + ' ' + value + '; '`. */
  function Entry(d: Directive): string
  {
    d.name + " " + d.value + "; "
  }

  /** The string the loop has accumulated once it has visited every directive. */
  function Accumulated(ds: seq<Directive>): string
  {
    if ds == [] then "" else Entry(ds[0]) + Accumulated(ds[1..])
  }

  /** A directive the header format can carry unambiguously: a non-empty name
      without white space or `;`, and a value without `;`. */
  predicate Unambiguous(d: Directive)
  {
    && d.name != []
    && (forall i :: 0 <= i < |d.name| ==> !IsSpace(d.name[i]) && d.name[i] != ';')
    && ';' !in d.value
  }

  predicate AllUnambiguous(ds: seq<Directive>)
  {
    forall i :: 0 <= i < |ds| ==> Unambiguous(ds[i])
  }

  /** The accumulated text of a non-empty policy ends in "; ". */
  lemma {:induction false} AccumulatedEnds(ds: seq<Directive>)
    requires ds != []
    ensures |Accumulated(ds)| >= 2
    ensures Accumulated(ds)[|Accumulated(ds)| - 2] == ';'
    ensures Accumulated(ds)[|Accumulated(ds)| - 1] == ' '
  {
    var e := Entry(ds[0]);
    if ds[1..] == [] {
      assert Accumulated(ds) == e + "";
    } else {
      AccumulatedEnds(ds[1..]);
      var t := Accumulated(ds[1..]);
      assert Accumulated(ds) == e + t;
      assert (e + t)[|e + t| - 2] == t[|t| - 2];
      assert (e + t)[|e + t| - 1] == t[|t| - 1];
    }
  }

  /** The accumulated text of an unambiguous policy starts with the first
      directive's name, so there is no leading white space to trim. */
  lemma AccumulatedStartsClean(ds: seq<Directive>)
    requires ds != [] && AllUnambiguous(ds)
    ensures |Accumulated(ds)| > 0 && !IsSpace(Accumulated(ds)[0])
  {
    var acc := Accumulated(ds);
    var d := ds[0];
    assert Unambiguous(d);
    assert acc == d.name + (" " + d.value + "; " + Accumulated(ds[1..]));
    assert acc[0] == d.name[0];
  }

  /** Trimmed text that ended in "; " ends in `;`. */
  lemma TrimAfterSemicolon(t: string)
    requires |t| >= 2 && t[|t| - 2] == ';' && t[|t| - 1] == ' '
    ensures var r := Trim(t); |r| > 0 && r[|r| - 1] == ';'
    ensures !IsSpace(t[0]) ==> Trim(t) + " " == t
  {
    var n := LeadingSpace(t);
    assert n <= |t| - 2 by {
      assert !IsSpace(t[|t| - 2]);
    }
    var ts := t[n..];
    assert ts[|ts| - 1] == ' ' && ts[|ts| - 2] == ';';
    var m := TrailingSpaceStart(ts);
    assert m == |ts| - 1 by {
      assert IsSpace(ts[|ts| - 1]);
      assert !IsSpace(ts[|ts| - 2]);
    }
    if !IsSpace(t[0]) {
      assert n == 0;
      assert ts == t;
      assert t[..|t| - 1] + " " == t;
    }
  }

  /** `concatCSP`: every directive rendered as `name value; ` in enumeration
      order, then the surrounding white space trimmed. */
  function ConcatCsp(ds: seq<Directive>): (r: string)
    ensures ds == [] ==> r == ""
    ensures ds != [] ==> |r| > 0 && r[|r| - 1] == ';'
    ensures ds != [] && AllUnambiguous(ds) ==> r + " " == Accumulated(ds)
  {
    if ds == [] then ""
    else
      AccumulatedEnds(ds);
      TrimAfterSemicolon(Accumulated(ds));
      assert AllUnambiguous(ds) ==> !IsSpace(Accumulated(ds)[0]) by {
        if AllUnambiguous(ds) {
          AccumulatedStartsClean(ds);
        }
      }
      Trim(Accumulated(ds))
  }

  /** The first position of `c` in `s`. */
  function IndexOf(s: string, c: char): (r: Option<nat>)
    ensures r.Some? ==> r.value < |s| && s[r.value] == c
    ensures r.Some? ==> forall k :: 0 <= k < r.value ==> s[k] != c
    ensures r.None? ==> forall k :: 0 <= k < |s| ==> s[k] != c
  {
    if s == [] then None
    else if s[0] == c then Some(0)
    else match IndexOf(s[1..], c)
      case Some(i) => Some(i + 1)
      case None => None
  }

  /** `c` first occurs right after a prefix that does not contain it. */
  lemma {:induction false} IndexOfAfter(a: string, b: string, c: char)
    requires c !in a && b != [] && b[0] == c
    ensures IndexOf(a + b, c) == Some(|a|)
  {
    if a != [] {
      assert (a + b)[1..] == a[1..] + b;
      IndexOfAfter(a[1..], b, c);
    }
  }

  /** Reads one `name value; ` entry from the front of `t`: the name ends at
      the first space, the value at the next `;`, which a space must follow.
      Gives the directive and the text after it. */
  function SplitEntry(t: string): (r: Option<(Directive, string)>)
    ensures r.Some? ==> |r.value.1| < |t|
  {
    match IndexOf(t, ' ')
    case None => None
    case Some(i) =>
      var after := t[i + 1..];
      match IndexOf(after, ';')
      case None => None
      case Some(j) =>
        var next := after[j + 1..];
        if next != [] && next[0] == ' '
        then Some((Directive(t[..i], after[..j]), next[1..]))
        else None
  }

  /** Reads back text in the accumulated form, entry by entry. */
  function ParseEntries(t: string): Option<seq<Directive>>
    decreases |t|
  {
    if t == [] then Some([])
    else match SplitEntry(t)
      case None => None
      case Some((d, next)) =>
        match ParseEntries(next)
        case None => None
        case Some(rest) => Some([d] + rest)
  }

  /** Reads a policy header back into its directives. */
  function ParseCsp(s: string): Option<seq<Directive>>
  {
    if s == [] then Some([]) else ParseEntries(s + " ")
  }

  /** The two sides of a single separator character.  Stated once so that
      callers need not unfold the concatenation themselves. */
  lemma AroundSeparator(a: string, c: char, b: string)
    ensures (a + ([c] + b))[..|a|] == a
    ensures (a + ([c] + b))[|a| + 1..] == b
  {
  }

  /** One unambiguous entry in front of any text is read back whole. */
  lemma SplitEntryOf(d: Directive, rest: string)
    requires Unambiguous(d)
    ensures SplitEntry(Entry(d) + rest) == Some((d, rest))
  {
    var next := [' '] + rest;
    var after := d.value + ([';'] + next);
    var t := d.name + ([' '] + after);
    assert Entry(d) + rest == t by {
      assert " " == [' '] && "; " == [';'] + [' '];
    }
    assert ' ' !in d.name by {
      forall k | 0 <= k < |d.name| ensures d.name[k] != ' ' {
        assert !IsSpace(d.name[k]);
      }
    }
    IndexOfAfter(d.name, [' '] + after, ' ');
    AroundSeparator(d.name, ' ', after);
    IndexOfAfter(d.value, [';'] + next, ';');
    AroundSeparator(d.value, ';', next);
  }

  /** Reading resumes right after an unambiguous entry. */
  lemma ParseEntry(d: Directive, rest: string, tail: seq<Directive>)
    requires Unambiguous(d) && ParseEntries(rest) == Some(tail)
    ensures ParseEntries(Entry(d) + rest) == Some([d] + tail)
  {
    SplitEntryOf(d, rest);
  }

  lemma AllUnambiguousTail(ds: seq<Directive>)
    requires ds != [] && AllUnambiguous(ds)
    ensures Unambiguous(ds[0]) && AllUnambiguous(ds[1..])
  {
    forall i | 0 <= i < |ds| - 1 ensures Unambiguous(ds[1..][i]) {
      assert ds[1..][i] == ds[i + 1];
    }
  }

  /** The untrimmed loop output reads back as the directives it was built from. */
  lemma {:induction false} ParseAccumulated(ds: seq<Directive>)
    requires AllUnambiguous(ds)
    ensures ParseEntries(Accumulated(ds)) == Some(ds)
  {
    if ds != [] {
      AllUnambiguousTail(ds);
      ParseAccumulated(ds[1..]);
      ParseEntry(ds[0], Accumulated(ds[1..]), ds[1..]);
      assert [ds[0]] + ds[1..] == ds;
    }
  }

  /** Round trip: the header of a policy whose directives are unambiguous reads
      back as exactly those directives, in the same order. */
  lemma CspRoundTrip(ds: seq<Directive>)
    requires AllUnambiguous(ds)
    ensures ParseCsp(ConcatCsp(ds)) == Some(ds)
  {
    if ds != [] {
      ParseAccumulated(ds);
    }
  }

  /** Consequently two different unambiguous policies never share a header. */
  lemma ConcatCspInjective(a: seq<Directive>, b: seq<Directive>)
    requires AllUnambiguous(a) && AllUnambiguous(b)
    requires ConcatCsp(a) == ConcatCsp(b)
    ensures a == b
  {
    CspRoundTrip(a);
    CspRoundTrip(b);
  }
}

=== FILE: extension_info.dfy ===
/** The `extensionInfo` table (app/extensions.js): the lifecycle state of every
    extension id, and the install information of loaded ones.  An id whose
    state is `undefined` has no entry in `state`. */
module ExtensionInfo {
  import opened Wrappers
  import Json

  /** The values of `extensionStates` that the table stores. */
  datatype ExtState = Registering | Registered | Loading | Enabled | Disabled

  datatype Info = Info(state: map<string, ExtState>, installInfo: map<string, Json.Value>)

  const Empty := Info(map[], map[])

  /** `this.extensionState[extensionId]`. */
  function StateOf(t: Info, id: string): Option<ExtState>
  {
    if id in t.state then Some(t.state[id]) else None
  }

  /** Enabled is a registered state, and excludes disabled and loading. */
  predicate IsEnabled(t: Info, id: string)
    ensures IsEnabled(t, id) ==> IsRegistered(t, id) && !IsDisabled(t, id) && !IsLoading(t, id)
  {
    StateOf(t, id) == Some(Enabled)
  }

  /** Disabled is a registered state, and excludes loading. */
  predicate IsDisabled(t: Info, id: string)
    ensures IsDisabled(t, id) ==> IsRegistered(t, id) && !IsLoading(t, id)
  {
    StateOf(t, id) == Some(Disabled)
  }

  /** Loading implies registered. */
  predicate IsLoading(t: Info, id: string)
    ensures IsLoading(t, id) ==> IsRegistered(t, id)
  {
    StateOf(t, id) == Some(Loading)
  }

  /** Loaded means enabled or disabled, and implies registered. */
  predicate IsLoaded(t: Info, id: string)
    ensures IsLoaded(t, id) <==> IsEnabled(t, id) || IsDisabled(t, id)
    ensures IsLoaded(t, id) ==> IsRegistered(t, id)
  {
    StateOf(t, id) in {Some(Enabled), Some(Disabled)}
  }

  /** Registered means the id has a state and it is not REGISTERING. */
  predicate IsRegistered(t: Info, id: string)
    ensures IsRegistered(t, id) <==> StateOf(t, id).Some? && StateOf(t, id).value != Registering
  {
    var s := StateOf(t, id);
    assert s.Some? ==> s.value.Registering? || s.value.Registered? || s.value.Loading? || s.value.Enabled? || s.value.Disabled?;
    s in {Some(Registered), Some(Loading), Some(Enabled), Some(Disabled)}
  }

  /** Registering and registered exclude each other; an id in neither has no state. */
  predicate IsRegistering(t: Info, id: string)
    ensures IsRegistering(t, id) ==> !IsRegistered(t, id)
    ensures !IsRegistering(t, id) && !IsRegistered(t, id) ==> StateOf(t, id).None?
  {
    var s := StateOf(t, id);
    assert s.Some? ==> s.value.Registering? || s.value.Registered? || s.value.Loading? || s.value.Enabled? || s.value.Disabled?;
    s == Some(Registering)
  }

  /** `getInstallInfo(extensionId)`: undefined exactly for an id nothing was
      stored for, and otherwise one of the stored values. */
  function GetInstallInfo(t: Info, id: string): (r: Option<Json.Value>)
    ensures r.None? <==> id !in t.installInfo
    ensures r.Some? ==> r.value in t.installInfo.Values
  {
    if id in t.installInfo then Some(t.installInfo[id]) else None
  }

  /** `setState(extensionId, state)`, where `None` is `undefined`: only the
      entry of `id` changes, and reading it back gives the stored state. */
  function SetState(t: Info, id: string, s: Option<ExtState>): (r: Info)
    ensures StateOf(r, id) == s
    ensures forall other :: other != id ==> StateOf(r, other) == StateOf(t, other)
    ensures r.installInfo == t.installInfo
  {
    match s
    case Some(x) => t.(state := t.state[id := x])
    case None => t.(state := t.state - {id})
  }

  /** `setInstallInfo(extensionId, installInfo)`: only the entry of `id`
      changes, and reading it back gives the stored information. */
  function SetInstallInfo(t: Info, id: string, info: Json.Value): (r: Info)
    ensures GetInstallInfo(r, id) == Some(info)
    ensures forall other :: other != id ==> GetInstallInfo(r, other) == GetInstallInfo(t, other)
    ensures r.state == t.state
  {
    t.(installInfo := t.installInfo[id := info])
  }
}

=== FILE: json.dfy ===
/** A JSON-like value without `null`: what the extension subsystem hands over as
    install information and what a manifest is made of.  Objects keep their keys
    in enumeration order, as `Object.keys` returns them. */
module Json {
  import opened Wrappers

  datatype Value =
    | Str(s: string)
    | Num(n: int)
    | Bool(b: bool)
    | Arr(items: seq<Value>)
    | Obj(fields: seq<Field>)

  datatype Field = Field(key: string, value: Value)

  /** The keys of an object, in order. */
  function Keys(fs: seq<Field>): seq<string>
  {
    if fs == [] then [] else [fs[0].key] + Keys(fs[1..])
  }

  /** Property read `object[key]`: the value of the first field named `key`. */
  function Get(fs: seq<Field>, key: string): Option<Value>
  {
    if fs == [] then None
    else if fs[0].key == key then Some(fs[0].value)
    else Get(fs[1..], key)
  }

  /** Property write `object[key] = value`: an existing key keeps its place and
      takes the new value, a new key is appended.  JavaScript lists a new
      integer-like key before the string keys instead, so this models writes of
      keys that are not integer-like only, such as `filePath` and `base_path`. */
  function Set(fs: seq<Field>, key: string, value: Value): seq<Field>
  {
    if fs == [] then [Field(key, value)]
    else if fs[0].key == key then [Field(key, value)] + fs[1..]
    else [fs[0]] + Set(fs[1..], key, value)
  }

  /** A read finds nothing exactly when the object lacks the key. */
  lemma {:induction false} GetNone(fs: seq<Field>, key: string)
    ensures Get(fs, key).None? <==> key !in Keys(fs)
  {
    if fs != [] {
      GetNone(fs[1..], key);
      assert key in Keys(fs) <==> fs[0].key == key || key in Keys(fs[1..]);
    }
  }

  /** After a write the written key reads back as the new value and every
      other key reads as before. */
  lemma {:induction false} SetGet(fs: seq<Field>, key: string, value: Value, k: string)
    ensures Get(Set(fs, key, value), k) == if k == key then Some(value) else Get(fs, k)
  {
    if fs != [] {
      if fs[0].key == key {
        assert Set(fs, key, value)[1..] == fs[1..];
      } else {
        assert Set(fs, key, value)[1..] == Set(fs[1..], key, value);
        SetGet(fs[1..], key, value, k);
      }
    }
  }

  /** A read finds nothing when no property name has the key's length. */
  lemma {:induction false} NoKeyOfLength(fs: seq<Field>, key: string)
    requires forall i :: 0 <= i < |fs| ==> |fs[i].key| != |key|
    ensures Get(fs, key) == None
  {
    if fs != [] {
      NoKeyOfLength(fs[1..], key);
    }
  }

  /** A read of an object with one more property at the end finds what the
      object already had, and otherwise the new property. */
  lemma {:induction false} GetAppend(fs: seq<Field>, f: Field, key: string)
    ensures Get(fs + [f], key) ==
      if Get(fs, key).Some? then Get(fs, key) else if f.key == key then Some(f.value) else None
  {
    if fs != [] {
      assert (fs + [f])[1..] == fs[1..] + [f];
      GetAppend(fs[1..], f, key);
    }
  }

  /** A write keeps the keys and their order, appending the key when it is new. */
  lemma {:induction false} SetKeys(fs: seq<Field>, key: string, value: Value)
    ensures Keys(Set(fs, key, value)) == if key in Keys(fs) then Keys(fs) else Keys(fs) + [key]
  {
    if fs != [] {
      var r := Set(fs, key, value);
      if fs[0].key == key {
        assert r[1..] == fs[1..];
      } else {
        assert r[1..] == Set(fs[1..], key, value);
        SetKeys(fs[1..], key, value);
        assert key in Keys(fs) <==> key in Keys(fs[1..]);
      }
    }
  }

  /** The value reached by following the property names of `path` from `v`,
      or `None` when some step is not an object holding that key. */
  function Lookup(v: Value, path: seq<string>): Option<Value>
    decreases |path|
  {
    if path == [] then Some(v)
    else match v
      case Obj(fs) =>
        (match Get(fs, path[0])
         case Some(child) => Lookup(child, path[1..])
         case None => None)
      case _ => None
  }
}

=== FILE: lifecycle.dfy ===
/** The extension lifecycle of app/extensions.js: `loadExtension`,
    `registerComponent`, the `fs.access` callback inside `loadExtension`, the
    component-updater and process event handlers that write the state table,
    and the start-up code that marks built-in extensions registered or
    disabled.  Every call into the host (the Electron session, the component
    updater, the app and extension actions, the file-system probe) is recorded
    as an `Effect` appended to the system's log instead of being performed. */
module Lifecycle {
  import opened Wrappers
  import opened Json
  import opened ExtensionInfo
  import LocaleMessages

  /** The ids and key from the configuration module that the lifecycle consults. */
  datatype Config = Config(
    widevineComponentId: string,
    pdfJsExtensionId: string,
    pdfJsExtensionPublicKey: string,
    braveExtensionId: string,
    torrentExtensionId: string,
    ethwalletExtensionId: string,
    cryptoTokenExtensionId: string,
    syncExtensionId: string)

  /** Foreign helpers: `bravifyText` and `fileUrl`. */
  datatype Host = Host(bravify: string -> string, fileUrl: string -> string)

  /** Calls into the host, in the order they are issued. */
  datatype Effect =
      /** `session.defaultSession.extensions.load(path, manifest, location)`, issued on behalf of `id` */
    | Load(id: string, path: string, manifest: Manifest, location: string)
      /** `session.defaultSession.extensions.enable(id)` */
    | Enable(id: string)
      /** `fs.access(path/manifest.json)`, whose answer arrives as a `ManifestChecked` event */
    | AccessManifest(id: string, path: string, manifest: Manifest, location: string)
      /** `componentUpdater.registerComponent(id[, publicKey])` */
    | RegisterWithUpdater(id: string, publicKey: Option<string>)
      /** `componentUpdater.checkNow(id)` */
    | CheckNow(id: string)
      /** `appActions.resourceReady(WIDEVINE)` */
    | WidevineReady
      /** `extensionActions.extensionDisabled(id)` */
    | ExtensionDisabled(id: string)
      /** `extensionActions.extensionInstalled(id, installInfo)` */
    | ExtensionInstalled(id: string, installInfo: Value)
      /** `extensionActions.extensionEnabled(id)` */
    | ExtensionEnabled(id: string)

  datatype System = System(info: Info, log: seq<Effect>)

  const Initial := System(ExtensionInfo.Empty, [])

  /** The default `manifest = {}` of `loadExtension`. */
  const EmptyManifest: Value := Obj([])

  /** `isExtension`: every component that is not the Widevine CDM. */
  function IsExtension(cfg: Config, componentId: string): (r: bool)
    ensures r <==> !IsWidevine(cfg, componentId)
  {
    componentId != cfg.widevineComponentId
  }

  /** `isWidevine`. */
  predicate IsWidevine(cfg: Config, componentId: string)
  {
    componentId == cfg.widevineComponentId
  }

  /** JavaScript truthiness of a stored `filePath`: present and not empty. */
  predicate Truthy(path: Option<string>)
  {
    path.Some? && path.value != ""
  }

  /** The extensions `loadExtension` hands to the session without probing the disk. */
  predicate IsBuiltIn(cfg: Config, id: string)
  {
    || id == cfg.braveExtensionId || id == cfg.torrentExtensionId
    || id == cfg.ethwalletExtensionId || id == cfg.cryptoTokenExtensionId
    || id == cfg.syncExtensionId
  }

  /** The manifest a load hands to the session: the caller's, or the one
      `loadExtension` substitutes for the PDF viewer, which carries the
      configured public key. */
  datatype Manifest = Given(value: Value) | PdfViewer(publicKey: string)

  /** The properties of the PDF viewer's manifest that precede its `key`.  The
      icon keys are integer-like, so the object enumerates them in ascending
      order. */
  const PdfViewerProperties: seq<Field> := [
    Field("name", Str("PDF Viewer")),
    Field("manifest_version", Num(2)),
    Field("version", Str("1.9.459")),
    Field("description", Str("Uses HTML5 to display PDF files directly in the browser.")),
    Field("icons", Obj([
      Field("16", Str("icon16.png")),
      Field("48", Str("icon48.png")),
      Field("128", Str("icon128.png"))])),
    Field("permissions", Arr([Str("storage"), Str("<all_urls>")])),
    Field("content_security_policy", Str("script-src 'self'; object-src 'self'")),
    Field("incognito", Str("split"))]

  /** None of the leading properties is named `key`: the names all differ
      from it in length.  Dafny also finds this unaided, but the length
      argument is much cheaper for the solver. */
  lemma PdfViewerPropertiesLackKey()
    ensures Get(PdfViewerProperties, "key") == None
  {
    var p := PdfViewerProperties;
    assert forall i :: 0 <= i < |p| ==> |p[i].key| != |"key"|;
    NoKeyOfLength(p, "key");
  }

  /** The manifest as JSON: the caller's, or the PDF viewer's literal object
      whose `key` is the configured public key. */
  function ManifestValue(m: Manifest): (r: Value)
    ensures m.Given? ==> r == m.value
    ensures m.PdfViewer? ==> Lookup(r, ["key"]) == Some(Str(m.publicKey))
  {
    match m
    case Given(v) => v
    case PdfViewer(key) =>
      var fs := PdfViewerProperties + [Field("key", Str(key))];
      PdfViewerPropertiesLackKey();
      GetAppend(PdfViewerProperties, Field("key", Str(key)), "key");
      Obj(fs)
  }

  /** An effect that starts loading `id`: the load itself or the disk probe that precedes it. */
  predicate StartsLoad(e: Effect, id: string)
  {
    (e.Load? || e.AccessManifest?) && e.id == id
  }

  /** Only the entry of `id` may differ between the two tables' states, and the
      install information is the same. */
  ghost predicate OnlyStateOf(a: Info, b: Info, id: string)
  {
    && (forall other :: other != id ==> StateOf(b, other) == StateOf(a, other))
    && b.installInfo == a.installInfo
  }

  /** `loadExtension(extensionId, extensionPath, manifest, manifestLocation)`.
      An extension that is neither loaded nor loading becomes LOADING and its
      load starts (directly for built-in ones, after a disk probe for the
      rest); any other is only enabled.  The PDF viewer always gets its own
      manifest and the `component` location. */
  function LoadExtension(cfg: Config, sys: System, id: string, path: string, manifest: Value, location: string): (r: System)
    ensures OnlyStateOf(sys.info, r.info, id)
    ensures |r.log| == |sys.log| + 1 && r.log[..|sys.log|] == sys.log
    ensures !IsLoaded(sys.info, id) && !IsLoading(sys.info, id) ==>
      IsLoading(r.info, id) && StartsLoad(r.log[|sys.log|], id) && r.log[|sys.log|].path == path
    ensures !IsLoaded(sys.info, id) && !IsLoading(sys.info, id) && IsBuiltIn(cfg, id) ==> r.log[|sys.log|].Load?
    ensures !IsLoaded(sys.info, id) && !IsLoading(sys.info, id) && !IsBuiltIn(cfg, id) ==> r.log[|sys.log|].AccessManifest?
    ensures !IsLoaded(sys.info, id) && !IsLoading(sys.info, id) && id == cfg.pdfJsExtensionId ==>
      r.log[|sys.log|].manifest == PdfViewer(cfg.pdfJsExtensionPublicKey) && r.log[|sys.log|].location == "component"
    ensures !IsLoaded(sys.info, id) && !IsLoading(sys.info, id) && id != cfg.pdfJsExtensionId ==>
      r.log[|sys.log|].manifest == Given(manifest) && r.log[|sys.log|].location == location
    ensures IsLoaded(sys.info, id) || IsLoading(sys.info, id) ==> r == System(sys.info, sys.log + [Enable(id)])
  {
    var isPdf := id == cfg.pdfJsExtensionId;
    var location' := if isPdf then "component" else location;
    var manifest' := if isPdf then PdfViewer(cfg.pdfJsExtensionPublicKey) else Given(manifest);
    if !IsLoaded(sys.info, id) && !IsLoading(sys.info, id) then
      var info := SetState(sys.info, id, Some(Loading));
      if IsBuiltIn(cfg, id) then
        System(info, sys.log + [Load(id, path, manifest', location')])
      else
        System(info, sys.log + [AccessManifest(id, path, manifest', location')])
    else
      System(sys.info, sys.log + [Enable(id)])
  }

  /** The `fs.access` callback of `loadExtension`: a missing manifest resets the
      state to `undefined` and asks the updater for a fresh copy; a present one
      is loaded.  The callback does not look at the state again. */
  function ManifestChecked(sys: System, id: string, path: string, manifest: Manifest, location: string, present: bool): (r: System)
    ensures OnlyStateOf(sys.info, r.info, id)
    ensures !present ==> StateOf(r.info, id).None? && r.log == sys.log + [CheckNow(id)]
    ensures present ==> r.info == sys.info && r.log == sys.log + [Load(id, path, manifest, location)]
  {
    if !present then
      System(SetState(sys.info, id, None), sys.log + [CheckNow(id)])
    else
      System(sys.info, sys.log + [Load(id, path, manifest, location)])
  }

  /** `registerComponent(extensionId, publicKeyString)`, with `storedPath` the
      `filePath` the app store holds for the extension.  Only an id neither
      registered nor registering moves to REGISTERING, with a registration
      request; otherwise the state is left to `loadExtension`, which runs only
      when a stored path exists. */
  function RegisterComponent(cfg: Config, sys: System, id: string, publicKey: Option<string>, storedPath: Option<string>): (r: System)
    ensures sys.log <= r.log
    ensures !IsRegistered(sys.info, id) && !IsRegistering(sys.info, id) ==>
      && IsRegistering(r.info, id)
      && OnlyStateOf(sys.info, r.info, id)
      && r.log == sys.log + [RegisterWithUpdater(id, publicKey)]
    ensures (IsRegistered(sys.info, id) || IsRegistering(sys.info, id)) && !Truthy(storedPath) ==> r == sys
    ensures (IsRegistered(sys.info, id) || IsRegistering(sys.info, id)) && Truthy(storedPath) ==>
      r == LoadExtension(cfg, sys, id, storedPath.value, EmptyManifest, "unpacked")
    ensures IsRegistered(sys.info, id) || IsRegistering(sys.info, id) ==>
      forall k :: |sys.log| <= k < |r.log| ==> !r.log[k].RegisterWithUpdater?
  {
    if !IsRegistered(sys.info, id) && !IsRegistering(sys.info, id) then
      System(SetState(sys.info, id, Some(Registering)), sys.log + [RegisterWithUpdater(id, publicKey)])
    else if Truthy(storedPath) then
      LoadExtension(cfg, sys, id, storedPath.value, EmptyManifest, "unpacked")
    else
      sys
  }

  /** The `component-ready` handler: the component is marked REGISTERED; an
      extension is then loaded (so it ends LOADING with its load started),
      while the Widevine CDM is announced as a ready resource. */
  function ComponentReady(cfg: Config, sys: System, componentId: string, path: string): (r: System)
    ensures OnlyStateOf(sys.info, r.info, componentId)
    ensures sys.log <= r.log
    ensures IsExtension(cfg, componentId) ==>
      IsLoading(r.info, componentId) && |r.log| == |sys.log| + 1 && StartsLoad(r.log[|sys.log|], componentId)
    ensures IsWidevine(cfg, componentId) ==>
      StateOf(r.info, componentId) == Some(Registered) && r.log == sys.log + [WidevineReady]
    ensures IsExtension(cfg, componentId) ==>
      r == LoadExtension(cfg, System(SetState(sys.info, componentId, Some(Registered)), sys.log), componentId, path, EmptyManifest, "unpacked")
  {
    var registered := System(SetState(sys.info, componentId, Some(Registered)), sys.log);
    if IsExtension(cfg, componentId) then
      LoadExtension(cfg, registered, componentId, path, EmptyManifest, "unpacked")
    else if IsWidevine(cfg, componentId) then
      System(registered.info, sys.log + [WidevineReady])
    else
      registered
  }

  /** The `component-registered` handler, with `storedPath` the `filePath` the
      app store holds: without one the updater is asked to install the
      extension; with one it is marked REGISTERED and loaded, ending LOADING. */
  function ComponentRegistered(cfg: Config, sys: System, id: string, storedPath: Option<string>): (r: System)
    ensures OnlyStateOf(sys.info, r.info, id)
    ensures sys.log <= r.log
    ensures !Truthy(storedPath) ==> r.info == sys.info && r.log == sys.log + [CheckNow(id)]
    ensures Truthy(storedPath) ==>
      IsLoading(r.info, id) && |r.log| == |sys.log| + 1 && StartsLoad(r.log[|sys.log|], id)
    ensures Truthy(storedPath) ==>
      r == LoadExtension(cfg, System(SetState(sys.info, id, Some(Registered)), sys.log), id, storedPath.value, EmptyManifest, "unpacked")
  {
    if !Truthy(storedPath) then
      System(sys.info, sys.log + [CheckNow(id)])
    else
      var registered := System(SetState(sys.info, id, Some(Registered)), sys.log);
      LoadExtension(cfg, registered, id, storedPath.value, EmptyManifest, "unpacked")
  }

  /** The `extension-unloaded` handler: the extension is DISABLED, which counts as loaded. */
  function ExtensionUnloaded(sys: System, id: string): (r: System)
    ensures IsDisabled(r.info, id) && IsLoaded(r.info, id)
    ensures OnlyStateOf(sys.info, r.info, id)
    ensures r.log == sys.log + [ExtensionDisabled(id)]
  {
    System(SetState(sys.info, id, Some(Disabled)), sys.log + [ExtensionDisabled(id)])
  }

  /** The property `key` holds a string. */
  predicate HasString(fs: seq<Field>, key: string)
  {
    Get(fs, key).Some? && Get(fs, key).value.Str?
  }

  /** The string held by the property `key`. */
  function StringAt(fs: seq<Field>, key: string): string
    requires HasString(fs, key)
  {
    Get(fs, key).value.s
  }

  /** `insertLocaleStrings` once `messages.json` has been read: `messages` is
      that file's dictionary when the manifest names a default locale and the
      file exists, and `None` otherwise.  Keys are kept, and so is which of
      them hold strings. */
  function Localize(installInfo: seq<Field>, messages: Option<map<string, string>>, host: Host): (r: seq<Field>)
    ensures Keys(r) == Keys(installInfo)
    ensures forall key :: HasString(r, key) <==> HasString(installInfo, key)
    ensures messages.None? ==> r == installInfo
    ensures messages.Some? ==> r == LocaleMessages.InsertPredefinedMessages(installInfo, messages.value, host.bravify)
  {
    match messages
    case None => installInfo
    case Some(dict) =>
      var r := LocaleMessages.InsertPredefinedMessages(installInfo, dict, host.bravify);
      forall key ensures HasString(r, key) <==> HasString(installInfo, key) {
        LocaleMessages.GetAfterInsert(installInfo, key, dict, host.bravify);
      }
      r
  }

  /** What the host delivers with `extension-ready`: install information carrying
      its `id` and `base_path` as strings, and a `manifest`, whose
      `default_locale` the handler reads first. */
  predicate ReadyInfo(installInfo: seq<Field>)
  {
    HasString(installInfo, "id") && HasString(installInfo, "base_path") && Get(installInfo, "manifest").Some?
  }

  /** The install information the `extension-ready` handler stores: the
      localised information, with `filePath` set to the original base path and
      `base_path` turned into a file URL.  The stored object is the one the
      handler goes on to mutate, so the table sees both writes. */
  function StoredInstallInfo(installInfo: seq<Field>, messages: Option<map<string, string>>, host: Host): (r: seq<Field>)
    requires ReadyInfo(installInfo)
    ensures HasString(r, "id")
  {
    var localized := Localize(installInfo, messages, host);
    assert HasString(localized, "id") && HasString(localized, "base_path");
    var base := StringAt(localized, "base_path");
    var withPath := Set(localized, "filePath", Str(base));
    var r := Set(withPath, "base_path", Str(host.fileUrl(base)));
    SetGet(localized, "filePath", Str(base), "id");
    SetGet(withPath, "base_path", Str(host.fileUrl(base)), "id");
    r
  }

  /** The stored information keeps the localised id and every original key,
      records the original base path as `filePath`, holds the base path's file
      URL as `base_path`, and has every other property as localised. */
  lemma StoredInstallInfoFields(installInfo: seq<Field>, messages: Option<map<string, string>>, host: Host)
    requires ReadyInfo(installInfo)
    ensures var localized := Localize(installInfo, messages, host);
      var r := StoredInstallInfo(installInfo, messages, host);
      && HasString(localized, "id") && HasString(localized, "base_path")
      && StringAt(r, "id") == StringAt(localized, "id")
      && Get(r, "filePath") == Some(Str(StringAt(localized, "base_path")))
      && Get(r, "base_path") == Some(Str(host.fileUrl(StringAt(localized, "base_path"))))
      && (forall key :: key in Keys(installInfo) ==> key in Keys(r))
      && (forall key :: key != "filePath" && key != "base_path" ==> Get(r, key) == Get(localized, key))
  {
    var localized := Localize(installInfo, messages, host);
    assert HasString(localized, "id") && HasString(localized, "base_path");
    var base := StringAt(localized, "base_path");
    var withPath := Set(localized, "filePath", Str(base));
    var url := Str(host.fileUrl(base));
    SetGet(localized, "filePath", Str(base), "id");
    SetGet(withPath, "base_path", url, "id");
    SetGet(localized, "filePath", Str(base), "filePath");
    SetGet(withPath, "base_path", url, "filePath");
    SetGet(withPath, "base_path", url, "base_path");
    SetKeys(localized, "filePath", Str(base));
    SetKeys(withPath, "base_path", url);
    forall key | key != "filePath" && key != "base_path"
      ensures Get(Set(withPath, "base_path", url), key) == Get(localized, key)
    {
      SetGet(localized, "filePath", Str(base), key);
      SetGet(withPath, "base_path", url, key);
    }
  }

  /** The `extension-ready` handler, given the install information as it
      stands once the handler has localised it and rewritten its paths
      (`StoredInstallInfo`): the extension is ENABLED under that information's
      `id` and the information is stored; then the installed action carries
      the same object and the enabled action follows; no other id changes. */
  function ExtensionReady(sys: System, stored: seq<Field>): (r: System)
    requires HasString(stored, "id")
    ensures IsEnabled(r.info, StringAt(stored, "id"))
    ensures GetInstallInfo(r.info, StringAt(stored, "id")) == Some(Obj(stored))
    ensures forall other :: other != StringAt(stored, "id") ==>
      StateOf(r.info, other) == StateOf(sys.info, other) && GetInstallInfo(r.info, other) == GetInstallInfo(sys.info, other)
    ensures r.log == sys.log + [ExtensionInstalled(StringAt(stored, "id"), Obj(stored)), ExtensionEnabled(StringAt(stored, "id"))]
  {
    var id := StringAt(stored, "id");
    var enabled := SetState(sys.info, id, Some(Enabled));
    var info := SetInstallInfo(enabled, id, Obj(stored));
    assert info.state == enabled.state;
    System(info, sys.log + [ExtensionInstalled(id, Obj(stored)), ExtensionEnabled(id)])
  }

  /** Start-up for a bundled extension that is to run: marked REGISTERED, then
      loaded with its generated manifest, so it ends LOADING with its load issued. */
  function StartBundled(cfg: Config, sys: System, id: string, path: string, manifest: Value, location: string): (r: System)
    ensures OnlyStateOf(sys.info, r.info, id)
    ensures IsLoading(r.info, id) && |r.log| == |sys.log| + 1 && StartsLoad(r.log[|sys.log|], id)
    ensures r.log[..|sys.log|] == sys.log
    ensures r.log[|sys.log|].path == path
    ensures IsBuiltIn(cfg, id) ==> r.log[|sys.log|].Load?
    ensures id != cfg.pdfJsExtensionId ==> r.log[|sys.log|].manifest == Given(manifest) && r.log[|sys.log|].location == location
    ensures id == cfg.pdfJsExtensionId ==> r.log[|sys.log|].manifest == PdfViewer(cfg.pdfJsExtensionPublicKey) && r.log[|sys.log|].location == "component"
  {
    LoadExtension(cfg, System(SetState(sys.info, id, Some(Registered)), sys.log), id, path, manifest, location)
  }

  /** Start-up for a bundled extension that its setting turns off: DISABLED,
      and the disabled action dispatched. */
  function StartDisabled(sys: System, id: string): (r: System)
    ensures IsDisabled(r.info, id)
    ensures OnlyStateOf(sys.info, r.info, id)
    ensures r.log == sys.log + [ExtensionDisabled(id)]
  {
    System(SetState(sys.info, id, Some(Disabled)), sys.log + [ExtensionDisabled(id)])
  }

  /** Everything that can happen to the table: the two operations callers invoke,
      the disk-probe answer, the host events, and the start-up writes. */
  datatype Event =
    | LoadCalled(id: string, path: string, manifest: Value, location: string)
    | RegisterCalled(id: string, publicKey: Option<string>, storedPath: Option<string>)
    | ManifestProbed(id: string, path: string, pending: Manifest, location: string, present: bool)
    | ComponentReadyEvent(id: string, path: string)
    | ComponentRegisteredEvent(id: string, storedPath: Option<string>)
    | ExtensionUnloadedEvent(id: string)
    | ExtensionReadyEvent(installInfo: seq<Field>, messages: Option<map<string, string>>)
    | BundledStarted(id: string, path: string, manifest: Value, location: string)
    | BundledDisabled(id: string)

  /** The host only reports ready extensions whose information carries an id,
      a base path and a manifest. */
  predicate Possible(ev: Event)
  {
    ev.ExtensionReadyEvent? ==> ReadyInfo(ev.installInfo)
  }

  /** One event, dispatched to its handler; effects are only ever appended. */
  function Step(cfg: Config, host: Host, sys: System, ev: Event): (r: System)
    requires Possible(ev)
    ensures sys.log <= r.log
  {
    match ev
    case LoadCalled(id, path, manifest, location) => LoadExtension(cfg, sys, id, path, manifest, location)
    case RegisterCalled(id, key, stored) => RegisterComponent(cfg, sys, id, key, stored)
    case ManifestProbed(id, path, manifest, location, present) => ManifestChecked(sys, id, path, manifest, location, present)
    case ComponentReadyEvent(id, path) => ComponentReady(cfg, sys, id, path)
    case ComponentRegisteredEvent(id, stored) => ComponentRegistered(cfg, sys, id, stored)
    case ExtensionUnloadedEvent(id) => ExtensionUnloaded(sys, id)
    case ExtensionReadyEvent(installInfo, messages) => ExtensionReady(sys, StoredInstallInfo(installInfo, messages, host))
    case BundledStarted(id, path, manifest, location) => StartBundled(cfg, sys, id, path, manifest, location)
    case BundledDisabled(id) => StartDisabled(sys, id)
  }

  /** The events in order; the log of the start is a prefix of the log at the end. */
  function Run(cfg: Config, host: Host, sys: System, evs: seq<Event>): (r: System)
    requires forall i :: 0 <= i < |evs| ==> Possible(evs[i])
    ensures sys.log <= r.log
    decreases |evs|
  {
    if evs == [] then sys else Run(cfg, host, Step(cfg, host, sys, evs[0]), evs[1..])
  }

  predicate RequestsRegistration(e: Effect, id: string)
  {
    e.RegisterWithUpdater? && e.id == id
  }

  /** Some effect in the log started loading `id`. */
  ghost predicate LoadIssued(log: seq<Effect>, id: string)
  {
    exists k :: 0 <= k < |log| && StartsLoad(log[k], id)
  }

  /** Some effect in the log asked the updater to register `id`. */
  ghost predicate RegistrationIssued(log: seq<Effect>, id: string)
  {
    exists k :: 0 <= k < |log| && RequestsRegistration(log[k], id)
  }

  /** The invariant the lifecycle keeps: nothing is LOADING unless a load of it
      was started, nothing is REGISTERING unless its registration was requested,
      and everything ENABLED has install information. */
  ghost predicate Valid(sys: System)
  {
    && (forall id :: IsLoading(sys.info, id) ==> LoadIssued(sys.log, id))
    && (forall id :: IsRegistering(sys.info, id) ==> RegistrationIssued(sys.log, id))
    && (forall id :: IsEnabled(sys.info, id) ==> GetInstallInfo(sys.info, id).Some?)
  }

  lemma InitialValid()
    ensures Valid(Initial)
  {
  }

  /** Effects already in the log stay there. */
  lemma IssuedPersists(log: seq<Effect>, log': seq<Effect>)
    requires log <= log'
    ensures forall id :: LoadIssued(log, id) ==> LoadIssued(log', id)
    ensures forall id :: RegistrationIssued(log, id) ==> RegistrationIssued(log', id)
  {
    forall id | LoadIssued(log, id) ensures LoadIssued(log', id) {
      var k :| 0 <= k < |log| && StartsLoad(log[k], id);
      assert log'[k] == log[k];
    }
    forall id | RegistrationIssued(log, id) ensures RegistrationIssued(log', id) {
      var k :| 0 <= k < |log| && RequestsRegistration(log[k], id);
      assert log'[k] == log[k];
    }
  }

  /** A step that changes only the state of `id`, keeps the install information,
      extends the log, and leaves `id` valid keeps the whole system valid. */
  lemma FramedStepValid(sys: System, r: System, id: string)
    requires Valid(sys)
    requires OnlyStateOf(sys.info, r.info, id)
    requires sys.log <= r.log
    requires IsLoading(r.info, id) ==> LoadIssued(r.log, id)
    requires IsRegistering(r.info, id) ==> RegistrationIssued(r.log, id)
    requires IsEnabled(r.info, id) ==> GetInstallInfo(r.info, id).Some?
    ensures Valid(r)
  {
    IssuedPersists(sys.log, r.log);
    assert forall other :: other != id ==> GetInstallInfo(r.info, other) == GetInstallInfo(sys.info, other);
  }

  lemma LoadExtensionValid(cfg: Config, sys: System, id: string, path: string, manifest: Value, location: string)
    requires Valid(sys)
    ensures Valid(LoadExtension(cfg, sys, id, path, manifest, location))
  {
    var r := LoadExtension(cfg, sys, id, path, manifest, location);
    if !IsLoaded(sys.info, id) && !IsLoading(sys.info, id) {
      assert StartsLoad(r.log[|sys.log|], id);
    }
    FramedStepValid(sys, r, id);
  }

  lemma RegisterComponentValid(cfg: Config, sys: System, id: string, key: Option<string>, stored: Option<string>)
    requires Valid(sys)
    ensures Valid(RegisterComponent(cfg, sys, id, key, stored))
  {
    var r := RegisterComponent(cfg, sys, id, key, stored);
    if !IsRegistered(sys.info, id) && !IsRegistering(sys.info, id) {
      assert RequestsRegistration(r.log[|sys.log|], id);
      FramedStepValid(sys, r, id);
    } else if Truthy(stored) {
      LoadExtensionValid(cfg, sys, id, stored.value, EmptyManifest, "unpacked");
    }
  }

  lemma ComponentReadyValid(cfg: Config, sys: System, id: string, path: string)
    requires Valid(sys)
    ensures Valid(ComponentReady(cfg, sys, id, path))
  {
    var r := ComponentReady(cfg, sys, id, path);
    if IsExtension(cfg, id) {
      assert StartsLoad(r.log[|sys.log|], id);
    }
    FramedStepValid(sys, r, id);
  }

  lemma ComponentRegisteredValid(cfg: Config, sys: System, id: string, stored: Option<string>)
    requires Valid(sys)
    ensures Valid(ComponentRegistered(cfg, sys, id, stored))
  {
    var r := ComponentRegistered(cfg, sys, id, stored);
    if Truthy(stored) {
      assert StartsLoad(r.log[|sys.log|], id);
    }
    FramedStepValid(sys, r, id);
  }

  lemma ExtensionReadyValid(sys: System, stored: seq<Field>)
    requires Valid(sys) && HasString(stored, "id")
    ensures Valid(ExtensionReady(sys, stored))
  {
    var r := ExtensionReady(sys, stored);
    var id := StringAt(stored, "id");
    IssuedPersists(sys.log, r.log);
    forall x | IsLoading(r.info, x) ensures LoadIssued(r.log, x) {
      assert x != id && IsLoading(sys.info, x);
    }
    forall x | IsRegistering(r.info, x) ensures RegistrationIssued(r.log, x) {
      assert x != id && IsRegistering(sys.info, x);
    }
    forall x | IsEnabled(r.info, x) ensures GetInstallInfo(r.info, x).Some? {
      if x != id {
        assert IsEnabled(sys.info, x);
      }
    }
  }

  lemma StartBundledValid(cfg: Config, sys: System, id: string, path: string, manifest: Value, location: string)
    requires Valid(sys)
    ensures Valid(StartBundled(cfg, sys, id, path, manifest, location))
  {
    var r := StartBundled(cfg, sys, id, path, manifest, location);
    assert StartsLoad(r.log[|sys.log|], id);
    FramedStepValid(sys, r, id);
  }

  /** The `extension-ready` event keeps the invariant and only appends to the log. */
  lemma ExtensionReadyStepValid(cfg: Config, host: Host, sys: System, installInfo: seq<Field>, messages: Option<map<string, string>>)
    requires Valid(sys) && ReadyInfo(installInfo)
    ensures var r := Step(cfg, host, sys, ExtensionReadyEvent(installInfo, messages)); Valid(r) && sys.log <= r.log
  {
    var stored := StoredInstallInfo(installInfo, messages, host);
    assert Step(cfg, host, sys, ExtensionReadyEvent(installInfo, messages)) == ExtensionReady(sys, stored);
    ExtensionReadyValid(sys, stored);
  }

  /** Every step keeps the invariant and only ever appends to the log. */
  lemma StepValid(cfg: Config, host: Host, sys: System, ev: Event)
    requires Valid(sys) && Possible(ev)
    ensures Valid(Step(cfg, host, sys, ev))
    ensures sys.log <= Step(cfg, host, sys, ev).log
  {
    match ev
    case LoadCalled(id, path, manifest, location) =>
      LoadExtensionValid(cfg, sys, id, path, manifest, location);
    case RegisterCalled(id, key, stored) =>
      RegisterComponentValid(cfg, sys, id, key, stored);
    case ManifestProbed(id, path, manifest, location, present) =>
      FramedStepValid(sys, ManifestChecked(sys, id, path, manifest, location, present), id);
    case ComponentReadyEvent(id, path) =>
      ComponentReadyValid(cfg, sys, id, path);
    case ComponentRegisteredEvent(id, stored) =>
      ComponentRegisteredValid(cfg, sys, id, stored);
    case ExtensionUnloadedEvent(id) =>
      FramedStepValid(sys, ExtensionUnloaded(sys, id), id);
    case ExtensionReadyEvent(installInfo, messages) =>
      ExtensionReadyStepValid(cfg, host, sys, installInfo, messages);
    case BundledStarted(id, path, manifest, location) =>
      StartBundledValid(cfg, sys, id, path, manifest, location);
    case BundledDisabled(id) =>
      FramedStepValid(sys, StartDisabled(sys, id), id);
  }

  /** From the empty table, any sequence of events leaves the system valid. */
  lemma {:induction false} RunValid(cfg: Config, host: Host, sys: System, evs: seq<Event>)
    requires Valid(sys)
    requires forall i :: 0 <= i < |evs| ==> Possible(evs[i])
    ensures Valid(Run(cfg, host, sys, evs))
    ensures sys.log <= Run(cfg, host, sys, evs).log
    decreases |evs|
  {
    if evs != [] {
      StepValid(cfg, host, sys, evs[0]);
      RunValid(cfg, host, Step(cfg, host, sys, evs[0]), evs[1..]);
    }
  }
}

=== FILE: locale_messages.dfy ===
/** Substitution of `__MSG_key__` placeholders in extension install information
    by the messages of the default locale (`insertPredefinedMessages`,
    app/extensions.js).  `bravifyText` is foreign code and enters as the
    parameter `bravify`; reading and parsing `messages.json` is outside the
    model, whose dictionary maps each message name to that entry's `message`
    text. */
module LocaleMessages {
  import opened Wrappers
  import opened Json

  const Prefix: string := "__MSG_"
  const Suffix: string := "__"

  /** The characters that `.` in a JavaScript regular expression does not match. */
  predicate IsLineTerminator(c: char)
  {
    c == '\n' || c == '\r' || c == '\U{2028}' || c == '\U{2029}'
  }

  predicate SingleLine(s: string)
  {
    forall i :: 0 <= i < |s| ==> !IsLineTerminator(s[i])
  }

  /** `value.match(/^__MSG_(.*)__$/)`, giving the first capture group on a match. */
  function MatchKey(s: string): (r: Option<string>)
    ensures r.Some? ==> s == Prefix + r.value + Suffix && SingleLine(r.value)
  {
    if && |s| >= |Prefix| + |Suffix|
       && s[..|Prefix|] == Prefix
       && s[|s| - |Suffix|..] == Suffix
       && SingleLine(s[|Prefix|..|s| - |Suffix|])
    then
      var k := s[|Prefix|..|s| - |Suffix|];
      assert s == s[..|Prefix|] + k + s[|s| - |Suffix|..];
      Some(k)
    else None
  }

  /** Every single-line key written as a placeholder is recognised, with that key. */
  lemma MatchKeyPlaceholder(k: string)
    requires SingleLine(k)
    ensures MatchKey(Prefix + k + Suffix) == Some(k)
  {
    var s := Prefix + k + Suffix;
    assert s[..|Prefix|] == Prefix;
    assert s[|s| - |Suffix|..] == Suffix;
    assert s[|Prefix|..|s| - |Suffix|] == k;
  }

  /** A string leaf after substitution. */
  function Substitute(s: string, dict: map<string, string>, bravify: string -> string): (r: string)
    ensures MatchKey(s).None? ==> r == s
    ensures MatchKey(s).Some? && MatchKey(s).value !in dict ==> r == s
    ensures MatchKey(s).Some? && MatchKey(s).value in dict ==> r == bravify(dict[MatchKey(s).value])
  {
    match MatchKey(s)
    case Some(k) => if k in dict then bravify(dict[k]) else s
    case None => s
  }

  /** A property value after the walk: nested objects are walked, strings
      substituted, arrays, numbers and booleans kept as they are. */
  function InsertValue(v: Value, dict: map<string, string>, bravify: string -> string): (r: Value)
    ensures r.Obj? <==> v.Obj?
    ensures r.Str? <==> v.Str?
    ensures v.Str? ==> r == Str(Substitute(v.s, dict, bravify))
    ensures v.Obj? ==> Keys(r.fields) == Keys(v.fields)
    ensures v.Arr? || v.Num? || v.Bool? ==> r == v
    decreases v, 1
  {
    match v
    case Obj(fs) => Obj(InsertPredefinedMessages(fs, dict, bravify))
    case Str(s) => Str(Substitute(s, dict, bravify))
    case _ => v
  }

  /** `insertPredefinedMessages(object, dictionary, /^__MSG_(.*)__$/)`: every
      property keeps its key and position, and its value is walked. */
  function InsertPredefinedMessages(fs: seq<Field>, dict: map<string, string>, bravify: string -> string): (r: seq<Field>)
    ensures |r| == |fs| && Keys(r) == Keys(fs)
    ensures forall i :: 0 <= i < |fs| ==> r[i].value == InsertValue(fs[i].value, dict, bravify)
    decreases fs, 0
  {
    if fs == [] then []
    else
      var rest := InsertPredefinedMessages(fs[1..], dict, bravify);
      var r := [Field(fs[0].key, InsertValue(fs[0].value, dict, bravify))] + rest;
      assert r[1..] == rest;
      r
  }

  /** Walking an object and then reading a property is reading the property
      and walking its value. */
  lemma {:induction false} GetAfterInsert(fs: seq<Field>, key: string, dict: map<string, string>, bravify: string -> string)
    ensures Get(InsertPredefinedMessages(fs, dict, bravify), key) ==
      (match Get(fs, key)
       case Some(x) => Some(InsertValue(x, dict, bravify))
       case None => None)
  {
    if fs != [] {
      var r := InsertPredefinedMessages(fs, dict, bravify);
      assert r[0] == Field(fs[0].key, InsertValue(fs[0].value, dict, bravify));
      assert r[1..] == InsertPredefinedMessages(fs[1..], dict, bravify);
      GetAfterInsert(fs[1..], key, dict, bravify);
    }
  }

  /** The walk commutes with following any property path: the value found at a
      path afterwards is the walked value found there before, and a path leads
      somewhere afterwards exactly when it did before. */
  lemma {:induction false} LookupAfterInsert(v: Value, path: seq<string>, dict: map<string, string>, bravify: string -> string)
    ensures Lookup(InsertValue(v, dict, bravify), path) ==
      (match Lookup(v, path)
       case Some(x) => Some(InsertValue(x, dict, bravify))
       case None => None)
    decreases |path|
  {
    if path != [] && v.Obj? {
      GetAfterInsert(v.fields, path[0], dict, bravify);
      match Get(v.fields, path[0])
      case Some(child) => LookupAfterInsert(child, path[1..], dict, bravify);
      case None =>
    }
  }

  /** What happens at each leaf of the install information: a single-line
      placeholder whose key the dictionary holds becomes the bravified message;
      a string that is not a placeholder, or whose key is missing, stays; arrays
      (not descended into), numbers and booleans stay; a nested object keeps
      its keys. */
  lemma LeafBehaviour(fs: seq<Field>, path: seq<string>, dict: map<string, string>, bravify: string -> string)
    ensures forall k :: SingleLine(k) && k in dict && Lookup(Obj(fs), path) == Some(Str(Prefix + k + Suffix)) ==>
      Lookup(Obj(InsertPredefinedMessages(fs, dict, bravify)), path) == Some(Str(bravify(dict[k])))
    ensures forall s :: (MatchKey(s).None? || MatchKey(s).value !in dict) && Lookup(Obj(fs), path) == Some(Str(s)) ==>
      Lookup(Obj(InsertPredefinedMessages(fs, dict, bravify)), path) == Some(Str(s))
    ensures forall x: Value :: (x.Arr? || x.Num? || x.Bool?) && Lookup(Obj(fs), path) == Some(x) ==>
      Lookup(Obj(InsertPredefinedMessages(fs, dict, bravify)), path) == Some(x)
    ensures forall g :: Lookup(Obj(fs), path) == Some(Obj(g)) ==>
      exists h :: Lookup(Obj(InsertPredefinedMessages(fs, dict, bravify)), path) == Some(Obj(h)) && Keys(h) == Keys(g)
    ensures Lookup(Obj(InsertPredefinedMessages(fs, dict, bravify)), path).Some? <==> Lookup(Obj(fs), path).Some?
  {
    LookupAfterInsert(Obj(fs), path, dict, bravify);
    forall k | SingleLine(k) && k in dict
      ensures MatchKey(Prefix + k + Suffix) == Some(k)
    {
      MatchKeyPlaceholder(k);
    }
  }
}

=== FILE: peer_sync.dfy ===
/** Peer reconciliation of the wallet's Ethereum node (`configurePeers`,
    app/extensions.js): the JSON-RPC 2.0 requests written to the node's IPC
    socket, given the peers the node reports and the enode addresses resolved
    from DNS.  The socket, the DNS queries and the JSON text are outside the
    model; requests are values. */
module PeerSync {
  import opened Wrappers

  const JsonRpcVersion: string := "2.0"

  /** The id of the opening `admin_peers` request, which the data handler recognises. */
  const PeersRequestId: nat := 1

  /** One reconciliation command. */
  datatype PeerCommand = AddPeer(enode: string) | RemovePeer(enode: string)

  /** A request as written to the socket: `{id, jsonrpc, method, params}`. */
  datatype Request = Request(id: nat, jsonrpc: string, methodName: string, params: seq<string>)

  function MethodName(c: PeerCommand): string
  {
    match c
    case AddPeer(_) => "admin_addPeer"
    case RemovePeer(_) => "admin_removePeer"
  }

  function ToSet(s: seq<string>): set<string>
  {
    set x | x in s
  }

  /** `a` lists some of the elements of `b`, in the order they occur there. */
  predicate Subsequence(a: seq<string>, b: seq<string>)
    decreases |b|
  {
    if a == [] then true
    else if b == [] then false
    else if a[|a| - 1] == b[|b| - 1] then Subsequence(a[..|a| - 1], b[..|b| - 1])
    else Subsequence(a, b[..|b| - 1])
  }

  /** The elements of `s` that are not in `known`, front to back, repeats kept:
      what a `forEach` over `s` with a `!known.includes(...)` test collects. */
  function Missing(s: seq<string>, known: seq<string>): seq<string>
  {
    if s == [] then []
    else (if s[0] in known then [] else [s[0]]) + Missing(s[1..], known)
  }

  /** Filtering one more element at the end. */
  lemma {:induction false} MissingSnoc(s: seq<string>, x: string, known: seq<string>)
    ensures Missing(s + [x], known) == Missing(s, known) + (if x in known then [] else [x])
  {
    if s != [] {
      assert (s + [x])[1..] == s[1..] + [x];
      MissingSnoc(s[1..], x, known);
    }
  }

  /** The enode each command names. */
  function Targets(cs: seq<PeerCommand>): (ts: seq<string>)
    ensures |ts| == |cs|
    ensures forall i :: 0 <= i < |cs| ==> ts[i] == cs[i].enode
  {
    seq(|cs|, i requires 0 <= i < |cs| => cs[i].enode)
  }

  /** The first loop: `admin_addPeer` for every discovered enode that is not an
      existing peer, in discovered order. */
  function AddCommands(existing: seq<string>, enodes: seq<string>): (r: seq<PeerCommand>)
    ensures forall i :: 0 <= i < |r| ==> r[i].AddPeer?
    decreases |enodes|
  {
    if enodes == [] then []
    else
      var last := enodes[|enodes| - 1];
      var front := AddCommands(existing, enodes[..|enodes| - 1]);
      if last !in existing then front + [AddPeer(last)] else front
  }

  /** The additions name exactly the discovered enodes that are not existing
      peers, in the order they were discovered. */
  lemma {:induction false} AddCommandsTargets(existing: seq<string>, enodes: seq<string>)
    ensures ToSet(Targets(AddCommands(existing, enodes))) == ToSet(enodes) - ToSet(existing)
    ensures Subsequence(Targets(AddCommands(existing, enodes)), enodes)
    decreases |enodes|
  {
    if enodes != [] {
      var last := enodes[|enodes| - 1];
      var init := enodes[..|enodes| - 1];
      var front := AddCommands(existing, init);
      AddCommandsTargets(existing, init);
      ToSetSnoc(enodes);
      if last !in existing {
        TargetsSnoc(front, AddPeer(last));
      } else {
        assert last in ToSet(existing);
        SubsequenceDrop(Targets(front), init, last);
        assert init + [last] == enodes;
      }
    }
  }

  /** The additions are one per discovered enode that is not an existing peer,
      repeats included, front to back. */
  lemma {:induction false} AddCommandsSequence(existing: seq<string>, enodes: seq<string>)
    ensures Targets(AddCommands(existing, enodes)) == Missing(enodes, existing)
    decreases |enodes|
  {
    if enodes != [] {
      var last := enodes[|enodes| - 1];
      var init := enodes[..|enodes| - 1];
      AddCommandsSequence(existing, init);
      MissingSnoc(init, last, existing);
      assert init + [last] == enodes;
      if last !in existing {
        TargetsSnoc(AddCommands(existing, init), AddPeer(last));
      }
    }
  }

  /** The second loop: `admin_removePeer` for every existing peer that was not
      discovered, in existing order. */
  function RemoveCommands(existing: seq<string>, enodes: seq<string>): (r: seq<PeerCommand>)
    ensures forall i :: 0 <= i < |r| ==> r[i].RemovePeer?
    decreases |existing|
  {
    if existing == [] then []
    else
      var last := existing[|existing| - 1];
      var front := RemoveCommands(existing[..|existing| - 1], enodes);
      if last !in enodes then front + [RemovePeer(last)] else front
  }

  /** The removals name exactly the existing peers that were not discovered,
      in the order the node listed them. */
  lemma {:induction false} RemoveCommandsTargets(existing: seq<string>, enodes: seq<string>)
    ensures ToSet(Targets(RemoveCommands(existing, enodes))) == ToSet(existing) - ToSet(enodes)
    ensures Subsequence(Targets(RemoveCommands(existing, enodes)), existing)
    decreases |existing|
  {
    if existing != [] {
      var last := existing[|existing| - 1];
      var init := existing[..|existing| - 1];
      var front := RemoveCommands(init, enodes);
      RemoveCommandsTargets(init, enodes);
      ToSetSnoc(existing);
      if last !in enodes {
        TargetsSnoc(front, RemovePeer(last));
      } else {
        assert last in ToSet(enodes);
        SubsequenceDrop(Targets(front), init, last);
        assert init + [last] == existing;
      }
    }
  }

  /** The removals are one per existing peer that was not discovered, repeats
      included, front to back. */
  lemma {:induction false} RemoveCommandsSequence(existing: seq<string>, enodes: seq<string>)
    ensures Targets(RemoveCommands(existing, enodes)) == Missing(existing, enodes)
    decreases |existing|
  {
    if existing != [] {
      var last := existing[|existing| - 1];
      var init := existing[..|existing| - 1];
      RemoveCommandsSequence(init, enodes);
      MissingSnoc(init, last, enodes);
      assert init + [last] == existing;
      if last !in enodes {
        TargetsSnoc(RemoveCommands(init, enodes), RemovePeer(last));
      }
    }
  }

  /** A subsequence of `b` is one of `b + [x]` too. */
  lemma {:induction false} SubsequenceDrop(a: seq<string>, b: seq<string>, x: string)
    requires Subsequence(a, b)
    ensures Subsequence(a, b + [x])
    decreases |b|, 1
  {
    var b' := b + [x];
    assert b'[..|b'| - 1] == b;
    if a != [] && a[|a| - 1] == x {
      SubsequenceShrink(a, b);
    }
  }

  /** Dropping the last element of a subsequence keeps it a subsequence. */
  lemma {:induction false} SubsequenceShrink(a: seq<string>, b: seq<string>)
    requires a != [] && Subsequence(a, b)
    ensures Subsequence(a[..|a| - 1], b)
    decreases |b|, 0
  {
    var a' := a[..|a| - 1];
    var b' := b[..|b| - 1];
    var y := b[|b| - 1];
    assert b' + [y] == b;
    if a[|a| - 1] != y {
      SubsequenceShrink(a, b');
    }
    SubsequenceDrop(a', b', y);
  }

  /** The commands `configurePeers` writes after the peer list arrives. */
  function Commands(existing: seq<string>, enodes: seq<string>): seq<PeerCommand>
  {
    AddCommands(existing, enodes) + RemoveCommands(existing, enodes)
  }

  /** The node's peer set after it has carried out `cs` in order. */
  function Apply(peers: set<string>, cs: seq<PeerCommand>): set<string>
    decreases |cs|
  {
    if cs == [] then peers
    else
      var before := Apply(peers, cs[..|cs| - 1]);
      match cs[|cs| - 1]
      case AddPeer(e) => before + {e}
      case RemovePeer(e) => before - {e}
  }

  lemma {:induction false} ApplyConcat(peers: set<string>, a: seq<PeerCommand>, b: seq<PeerCommand>)
    ensures Apply(peers, a + b) == Apply(Apply(peers, a), b)
    decreases |b|
  {
    if b == [] {
      assert a + b == a;
    } else {
      assert (a + b)[..|a + b| - 1] == a + b[..|b| - 1];
      assert (a + b)[|a + b| - 1] == b[|b| - 1];
      ApplyConcat(peers, a, b[..|b| - 1]);
    }
  }

  lemma {:induction false} ApplyAdds(peers: set<string>, cs: seq<PeerCommand>)
    requires forall i :: 0 <= i < |cs| ==> cs[i].AddPeer?
    ensures Apply(peers, cs) == peers + ToSet(Targets(cs))
    decreases |cs|
  {
    if cs != [] {
      var init := cs[..|cs| - 1];
      ApplyAdds(peers, init);
      assert Targets(cs) == Targets(init) + [cs[|cs| - 1].enode];
    }
  }

  lemma {:induction false} ApplyRemoves(peers: set<string>, cs: seq<PeerCommand>)
    requires forall i :: 0 <= i < |cs| ==> cs[i].RemovePeer?
    ensures Apply(peers, cs) == peers - ToSet(Targets(cs))
    decreases |cs|
  {
    if cs != [] {
      var init := cs[..|cs| - 1];
      ApplyRemoves(peers, init);
      assert Targets(cs) == Targets(init) + [cs[|cs| - 1].enode];
    }
  }

  /** The set equation: existing peers, plus the additions, minus the removals,
      are exactly the discovered enodes. */
  lemma Reconciles(existing: seq<string>, enodes: seq<string>)
    ensures Apply(ToSet(existing), Commands(existing, enodes)) == ToSet(enodes)
  {
    var adds := AddCommands(existing, enodes);
    var removes := RemoveCommands(existing, enodes);
    AddCommandsTargets(existing, enodes);
    RemoveCommandsTargets(existing, enodes);
    ApplyConcat(ToSet(existing), adds, removes);
    ApplyAdds(ToSet(existing), adds);
    ApplyRemoves(Apply(ToSet(existing), adds), removes);
  }

  /** Nothing is written beyond the peer query exactly when the node already
      has the discovered peers. */
  lemma NoCommandsIffSameSet(existing: seq<string>, enodes: seq<string>)
    ensures Commands(existing, enodes) == [] <==> ToSet(existing) == ToSet(enodes)
  {
    var adds := AddCommands(existing, enodes);
    var removes := RemoveCommands(existing, enodes);
    AddCommandsTargets(existing, enodes);
    RemoveCommandsTargets(existing, enodes);
    if ToSet(existing) == ToSet(enodes) {
      ToSetEmpty(Targets(adds));
      ToSetEmpty(Targets(removes));
    }
  }

  lemma ToSetEmpty(s: seq<string>)
    ensures ToSet(s) == {} <==> s == []
  {
    if s != [] {
      assert s[0] in ToSet(s);
    }
  }

  lemma ToSetSnoc(s: seq<string>)
    requires s != []
    ensures ToSet(s) == ToSet(s[..|s| - 1]) + {s[|s| - 1]}
  {
    assert s == s[..|s| - 1] + [s[|s| - 1]];
  }

  lemma TargetsSnoc(cs: seq<PeerCommand>, c: PeerCommand)
    ensures Targets(cs + [c]) == Targets(cs) + [c.enode]
    ensures ToSet(Targets(cs + [c])) == ToSet(Targets(cs)) + {c.enode}
    ensures Targets(cs + [c])[..|cs|] == Targets(cs)
  {
    ToSetSnoc(Targets(cs + [c]));
  }

  /** The request that carries command `c` under `id`. */
  function CommandRequest(c: PeerCommand, id: nat): Request
  {
    Request(id, JsonRpcVersion, MethodName(c), [c.enode])
  }

  /** Everything written to the socket: the peer query, then each command. */
  function Requests(existing: seq<string>, enodes: seq<string>): seq<Request>
  {
    var cs := Commands(existing, enodes);
    [Request(PeersRequestId, JsonRpcVersion, "admin_peers", [])]
      + seq(|cs|, i requires 0 <= i < |cs| => CommandRequest(cs[i], PeersRequestId + 1 + i))
  }

  /** `terminateId` as the code sets it: the counter after the last command,
      one past the last id written. */
  function TerminateIdAsWritten(existing: seq<string>, enodes: seq<string>): nat
  {
    PeersRequestId + 1 + |Commands(existing, enodes)|
  }

  /** The `enodes.forEach` loop of `configurePeers`. */
  method CollectAdds(existing: seq<string>, enodes: seq<string>) returns (commands: seq<PeerCommand>)
    ensures commands == AddCommands(existing, enodes)
  {
    commands := [];
    var i := 0;
    while i < |enodes|
      invariant 0 <= i <= |enodes|
      invariant commands == AddCommands(existing, enodes[..i])
    {
      assert enodes[..i + 1][..i] == enodes[..i];
      if enodes[i] !in existing {
        commands := commands + [AddPeer(enodes[i])];
      }
      i := i + 1;
    }
    assert enodes[..|enodes|] == enodes;
  }

  /** The `existingNodes.forEach` loop of `configurePeers`. */
  method CollectRemoves(existing: seq<string>, enodes: seq<string>) returns (commands: seq<PeerCommand>)
    ensures commands == RemoveCommands(existing, enodes)
  {
    commands := [];
    var i := 0;
    while i < |existing|
      invariant 0 <= i <= |existing|
      invariant commands == RemoveCommands(existing[..i], enodes)
    {
      assert existing[..i + 1][..i] == existing[..i];
      if existing[i] !in enodes {
        commands := commands + [RemovePeer(existing[i])];
      }
      i := i + 1;
    }
    assert existing[..|existing|] == existing;
  }

  /** The `commands.forEach` loop: each command written under the next id. */
  method WriteCommands(written0: seq<Request>, id0: nat, commands: seq<PeerCommand>) returns (written: seq<Request>, id: nat)
    ensures |written| == |written0| + |commands| && written[..|written0|] == written0
    ensures forall k :: 0 <= k < |commands| ==> written[|written0| + k] == CommandRequest(commands[k], id0 + k)
    ensures id == id0 + |commands|
  {
    written, id := written0, id0;
    var j := 0;
    while j < |commands|
      invariant 0 <= j <= |commands|
      invariant id == id0 + j
      invariant |written| == |written0| + j && written[..|written0|] == written0
      invariant forall k :: 0 <= k < j ==> written[|written0| + k] == CommandRequest(commands[k], id0 + k)
    {
      written := written + [CommandRequest(commands[j], id)];
      id := id + 1;
      j := j + 1;
    }
  }

  /** `configurePeers` with its `id` counter: the peer query under id 1, then
      the additions and removals under consecutive ids, every request tagged
      JSON-RPC 2.0; `terminateId` ends as the next unused id. */
  method ConfigurePeers(existing: seq<string>, enodes: seq<string>) returns (written: seq<Request>, terminateId: nat)
    ensures written == Requests(existing, enodes)
    ensures terminateId == TerminateIdAsWritten(existing, enodes)
    ensures written[0] == Request(1, "2.0", "admin_peers", [])
    ensures forall k :: 0 <= k < |written| ==> written[k].id == k + 1 && written[k].jsonrpc == "2.0"
    ensures terminateId == |written| + 1
  {
    var id: nat := 1;
    var opening := [Request(id, JsonRpcVersion, "admin_peers", [])];
    id := id + 1;
    var adds := CollectAdds(existing, enodes);
    var removes := CollectRemoves(existing, enodes);
    var commands := adds + removes;
    written, id := WriteCommands(opening, id, commands);
    terminateId := id;
    assert written == Requests(existing, enodes);
  }

  /** What the data handler does with a response: the peer list starts the
      reconciliation, a response carrying `terminateId` ends the connection,
      any other is ignored. */
  datatype Reaction = Reconcile | Close | Ignore

  function OnResponse(responseId: nat, terminateId: nat): (r: Reaction)
    ensures r == Reconcile <==> responseId == PeersRequestId
    ensures r == Close <==> responseId != PeersRequestId && responseId == terminateId
  {
    if responseId == PeersRequestId then Reconcile
    else if responseId == terminateId then Close
    else Ignore
  }

  /** As written, no response closes the connection: the node answers each
      request under that request's id, and `terminateId` is the id of none of
      them. */
  lemma TerminateIdUnanswered(existing: seq<string>, enodes: seq<string>)
    ensures forall k :: 0 <= k < |Requests(existing, enodes)| ==>
      OnResponse(Requests(existing, enodes)[k].id, TerminateIdAsWritten(existing, enodes)) != Close
  {
    var rs := Requests(existing, enodes);
    forall k | 0 <= k < |rs| ensures rs[k].id == k + 1 {
      if k > 0 {
        assert rs[k] == CommandRequest(Commands(existing, enodes)[k - 1], k + 1);
      }
    }
  }

  /** A concrete case: one new enode, so requests 1 and 2 are written and
      `terminateId` is 3; neither answer closes the socket. */
  lemma TerminateIdUnansweredExample()
    ensures var rs := Requests([], ["enode://k@10.0.0.1:30303"]);
      && |rs| == 2
      && TerminateIdAsWritten([], ["enode://k@10.0.0.1:30303"]) == 3
      && OnResponse(rs[0].id, 3) == Reconcile
      && OnResponse(rs[1].id, 3) == Ignore
  {
    var enode := "enode://k@10.0.0.1:30303";
    assert AddCommands([], [enode]) == [AddPeer(enode)] by {
      assert [enode][..0] == [];
    }
    assert Commands([], [enode]) == [AddPeer(enode)];
  }

  /** The evidently intended closing id: the id of the last command written,
      or none when there was nothing to reconcile and the connection can end
      at once. */
  function IntendedTerminateId(existing: seq<string>, enodes: seq<string>): (r: Option<nat>)
    ensures r.None? <==> ToSet(existing) == ToSet(enodes)
    ensures r.Some? ==> r.value == Requests(existing, enodes)[|Requests(existing, enodes)| - 1].id
  {
    NoCommandsIffSameSet(existing, enodes);
    var rs := Requests(existing, enodes);
    var n := |Commands(existing, enodes)|;
    if n == 0 then None
    else
      assert rs[n] == CommandRequest(Commands(existing, enodes)[n - 1], n + 1);
      Some(PeersRequestId + n)
  }

  /** With the intended id the answer to the last command, and only that one,
      closes the connection. */
  lemma IntendedTerminateIdCloses(existing: seq<string>, enodes: seq<string>)
    requires IntendedTerminateId(existing, enodes).Some?
    ensures var rs := Requests(existing, enodes);
      forall k :: 0 <= k < |rs| ==>
        (OnResponse(rs[k].id, IntendedTerminateId(existing, enodes).value) == Close <==> k == |rs| - 1)
  {
    var rs := Requests(existing, enodes);
    forall k | 0 <= k < |rs| ensures rs[k].id == k + 1 {
      if k > 0 {
        assert rs[k] == CommandRequest(Commands(existing, enodes)[k - 1], k + 1);
      }
    }
  }
}

=== FILE: wrappers.dfy ===
/** The optional value used wherever the program reads a property that may be `undefined`. */
module Wrappers {

  datatype Option<+T> = None | Some(value: T)
}
